=== FILE: README.md ===
# Todo starter kit: a Dafny model

A model of the logic in a web-app starter kit: a Cloudflare worker serving a todo list backed by a PostgreSQL `todos` table, a four-step wizard component, and the frontend API client. Everything is modelled as immutable values and pure functions. The libraries underneath are replaced by values:

- The database is a `Schema.Table`: a `map<nat, Todo>` from id to row, plus the next value of the `serial` id sequence.
- Each route handler is a function from (table, routed request, `now`) to (table', HTTP status, JSON body). `Worker.Handle` dispatches to them.
- The wizard's React state is a step number. The buttons are `Wizard.Next` and `Wizard.Previous`.
- The client's private fields are a `Client` value. Each helper builds a `FetchRequest` descriptor instead of calling `fetch`. `HandleResponse` classifies whatever `fetch` resolved to.

Modules and files:

| file | module | models |
|---|---|---|
| wrappers.dfy | `Wrappers` | `Option`, `Result` |
| js_string.dfy | `JsString` | ECMAScript `String.prototype.trim` and the decimal rendering of an integer in a template literal |
| schema.dfy | `Schema` | `drizzle/schema.postgres.ts` |
| worker.dfy | `Worker` | `worker/index.postgres.ts` |
| wizard.dfy | `Wizard` | `src/features/wizard/WizardExample.tsx` |
| api_client.dfy | `ApiClient` | `src/lib/api/client.ts` |

Modelling choices:

- All four NOT NULL columns (`text`, `completed`, `createdAt`, `updatedAt`) are plain fields of `Schema.Todo`, not `Option`s. A null in any of them cannot be represented.
- The `serial` sequence starts at 1. It is a 32-bit integer sequence, so it stops at 2^31 - 1. Deleting a row never rewinds it, so an id is never handed out twice. Once the sequence is exhausted the insert throws. The create handler's `catch` then answers 500 "Failed to create todo". This is one of three exception-driven paths the model includes, each because it follows from a PostgreSQL limit. The other two are an out-of-range id and a text containing U+0000, both described below.
- Time is an abstract `nat`. The create handler gets both timestamps from the database clock (`defaultNow`). The update handler gets `updatedAt` from the worker's clock (`new Date()`). These are different clocks, so the model does not relate `updatedAt` to `createdAt`.
- PostgreSQL's `text` type cannot hold the character U+0000. A create or update whose text contains it fails when the value is bound, before any row is looked at, and the handler answers 500 with the table unchanged.
- Path ids are `int`s, the number `parseInt` produced. An id outside -2^31..2^31 - 1 does not fit the `integer` column, so comparing it raises an out-of-range error and the handler answers 500. Any other id that is not a key of the table gets 404.
- `GET /api/todos` issues a `SELECT` with no `ORDER BY`, so the row order is unspecified. `Worker.ListAll` returns ascending id order, and its contract also says each row appears exactly once.
- `trim` strips exactly the WhiteSpace and LineTerminator code points of sections 12.2 and 12.3 of ECMA-262. They are listed in `JsString.IsTrimmable`.
- `checkHealth` passes no `method`. Its descriptor has `verb = None`, and `EffectiveMethod` supplies `fetch`'s default, GET.
- `response.ok` is taken to mean a status in 200..299, the "ok status" of the Fetch standard.

## Model

| member | source | states |
|---|---|---|
| JsString.Trim | worker/index.postgres.ts:61-69 | the trimmed text is a contiguous piece of the input with only whitespace cut from either end, starts and ends with non-whitespace, and is empty exactly when the input is all whitespace |
| JsString.TrimUnique | worker/index.postgres.ts:61-69 | any piece of the input that has only whitespace around it and does not start or end with whitespace is the trim result, so the characterisation in `Trim`'s contract pins trimming down uniquely |
| JsString.TrimKeepsNonWhitespace | worker/index.postgres.ts:61-69 | a character that is not whitespace, such as U+0000, occurs in the trimmed text exactly when it occurs in the original |
| JsString.TrimIdempotent | worker/index.postgres.ts:69 | trimming already trimmed text changes nothing |
| JsString.NatToString | src/lib/api/client.ts:36 | the rendering of a status number is a non-empty digit string with no leading zero whose digits read back as the number |
| Schema.EmptyTableValid | drizzle/schema.postgres.ts:15 | an empty table with a fresh sequence satisfies the table invariant (every row under its own id, every id below the sequence position) |
| Schema.RowFor | drizzle/schema.postgres.ts:15-19 | an inserted row has the given text; `completed` is true only when true is given, so it defaults to false; each timestamp defaults to the insertion time |
| Schema.Insert | drizzle/schema.postgres.ts:15-19 | insert fails exactly when the 32-bit sequence is exhausted; otherwise the new id is in no existing row and at least the old sequence position, the table gains exactly that row, and the invariant is kept |
| Schema.DefaultsOnInsert | drizzle/schema.postgres.ts:17-19 | an insert giving only the text yields `completed = false` and both timestamps equal to the insertion time |
| Worker.HealthCheck | worker/index.postgres.ts:33-39 | the health reply is 200 with status "ok", the current time and the fixed message "Todo API with PostgreSQL is running" |
| Worker.HealthIgnoresTable | worker/index.postgres.ts:33-39 | the health reply is the same for any two tables, and the table is left as it was |
| Worker.ListAll | worker/index.postgres.ts:42-49 | the listing contains exactly the table's rows, each once, in ascending id order |
| Worker.Create | worker/index.postgres.ts:57-76 | 400 "Text is required" with the table unchanged exactly when the text is missing or all whitespace; 500 "Failed to create todo" with the table unchanged exactly when the text is valid but contains U+0000 or the sequence is exhausted; otherwise 201 with a row under a fresh id that holds the trimmed, non-empty text (free of U+0000), `completed = false` and both timestamps `now`, and the table gains only that row |
| Worker.CreatedTodoListed | worker/index.postgres.ts:68-72 | a row returned by a successful create appears in the next listing |
| Worker.Update | worker/index.postgres.ts:80-105 | an id outside the 32-bit integer range or a supplied text containing U+0000 gives 500 "Failed to update todo", and otherwise an unknown id gives 404 "Todo not found", all with the table unchanged; for a known id and storable text the key set, the sequence and every other row stay as they were; `text` and `completed` change only when supplied and then to the supplied values; id and `createdAt` are kept; `updatedAt` becomes `now` even when no field is supplied; the reply is 200 with the updated row |
| Worker.ToggleCompleted | worker/index.postgres.ts:88-95 | supplying the negated `completed` flips that flag and refreshes `updatedAt`; the rest of the row is unchanged |
| Worker.UpdateKeepsTextVerbatim | worker/index.postgres.ts:90-105 | an update stores the supplied text as is, even empty or padded, and succeeds; only a text containing U+0000 fails, with 500 and the table unchanged |
| Worker.Delete | worker/index.postgres.ts:109-128 | an id outside the 32-bit integer range gives 500 "Failed to delete todo" and an unknown id gives 404, both with the table unchanged; a known id removes exactly that key, leaves every other row and the sequence as they were, and replies 200 "Todo deleted successfully" |
| Worker.DeletedTodoNotListed | worker/index.postgres.ts:116-124 | after a delete, no listed row carries the deleted id |
| Worker.DeletedIdNotReused | drizzle/schema.postgres.ts:15 | a todo created after a delete never gets the deleted row's id |
| Worker.Handle | worker/index.postgres.ts:32-133 | every route keeps the table invariant and never moves the sequence backwards; health, listing and unrouted requests leave the table unchanged; listing returns 200 with exactly the table's rows; anything unrouted gets 404 "Not found" |
| Worker.Serve | worker/index.postgres.ts:24-133 | over any sequence of requests the table stays valid, the sequence never moves backwards, and no id below the starting sequence position appears unless it was already present |
| Wizard.Next | src/features/wizard/WizardExample.tsx:21-26 | Next moves exactly one step forward below the last step, keeps the step within 1..4, and leaves it unchanged exactly at or past the last step |
| Wizard.Previous | src/features/wizard/WizardExample.tsx:28-32 | Previous moves exactly one step back above the first step, keeps the step within 1..4, and leaves it unchanged exactly at the first step |
| Wizard.RunStaysInRange | src/features/wizard/WizardExample.tsx:21-32 | from any step in 1..4, any sequence of Next/Previous clicks ends in 1..4 |
| Wizard.ReachableStepsInRange | src/features/wizard/WizardExample.tsx:13-32 | every step reachable from the initial step 1 lies in 1..4 |
| Wizard.EveryStepReachable | src/features/wizard/WizardExample.tsx:13-26 | each step s in 1..4 is reached from step 1 by s - 1 Next clicks |
| Wizard.NextPreviousInverse | src/features/wizard/WizardExample.tsx:21-32 | below the last step Previous undoes Next; above the first step Next undoes Previous |
| Wizard.ProgressBar | src/features/wizard/WizardExample.tsx:52-57 | the bar has 4 segments, and segment i is filled exactly when i < step |
| Wizard.FilledSegmentsEqualStep | src/features/wizard/WizardExample.tsx:52-57 | on every step in 1..4 exactly `step` segments are filled |
| Wizard.ButtonsMatchTransitions | src/features/wizard/WizardExample.tsx:103-125 | Previous is disabled exactly when clicking it would not move; Next is shown exactly when it would move; otherwise, at step 4, Submit is shown |
| Wizard.PanelHeading | src/features/wizard/WizardExample.tsx:68-98 | a step panel renders exactly for steps 1..4 |
| Wizard.StepCaption | src/features/wizard/WizardExample.tsx:62 | the caption is "Step ", the step number without zero padding, then " of 4", and the number in it reads back as the step |
| Wizard.ReachableStepShowsPanel | src/features/wizard/WizardExample.tsx:66-98 | after any sequence of clicks from the start, one of the four step panels is rendered |
| ApiClient.NewClient | src/lib/api/client.ts:11-17 | the headers start as exactly Content-Type: application/json; the base URL is `VITE_API_URL` when set and non-empty, otherwise http://localhost:8787, and never empty |
| ApiClient.SetAuthToken | src/lib/api/client.ts:23-28 | the header names gain only Authorization, which becomes "Bearer " + token; every other header and the base URL are kept |
| ApiClient.LastTokenWins | src/lib/api/client.ts:23-28 | setting a second token gives the same client as setting only the second |
| ApiClient.HeaderNamesStable | src/lib/api/client.ts:23-28 | after the first token the set of header names does not grow |
| ApiClient.NewClientWithToken | src/lib/api/client.ts:14-27 | a fresh client with a token has exactly the Content-Type and Authorization headers |
| ApiClient.RequestFor | src/lib/api/client.ts:44-98 | each call targets the base URL followed by its endpoint (`/api/health` for the health check) with the current headers; the method is GET for the health check and get, and POST/PUT/DELETE for the others; a body is present exactly for POST and PUT and is the call's data |
| ApiClient.AuthorizedRequests | src/lib/api/client.ts:23-98 | once a token is set, every call sends it as a bearer token along with the JSON content type |
| ApiClient.DefaultHealthUrl | src/lib/api/client.ts:12-47 | without `VITE_API_URL`, the health check targets http://localhost:8787/api/health |
| ApiClient.ApiErrorRoundTrip | src/lib/api/client.ts:36 | the status and the body text can be read back out of an "API Error: status - body" message |
| ApiClient.ApiErrorParsedIsExact | src/lib/api/client.ts:36 | a message that parses is exactly "API Error: ", the unpadded status, " - " and the body text it parses to, so parsing is an exact inverse of building the message |
| JsString.CanonicalDigitsRoundTrip | src/lib/api/client.ts:36 | every digit run without zero padding is the rendering of its own value |
| ApiClient.HandleResponse | src/lib/api/client.ts:33-39 | a response fails exactly when it is not ok, with a message that parses back to its status and body text, which by `ApiErrorParsedIsExact` is exactly "API Error: <status> - <body>"; an ok response yields its body |

## Left out

- Network and database I/O are not modelled: the `fetch` calls, the Neon/Drizzle connection setup and SQL execution. The store is a map and requests are descriptors.
- The clock is not modelled. `new Date()` and `defaultNow()` are a `now: nat` argument. The health reply's timestamp is that number, not an ISO-8601 string.
- `parseInt` on non-numeric ids is not modelled, because its NaN result is handled by the driver.
- JSON is not modelled: request body parsing (`c.req.json`), `JSON.stringify` and `response.json()`. A POST `text` is either absent or a string. A null or non-string `text`, or a null update field, cannot be expressed. A null update field would violate NOT NULL and yield 500 for an existing row; an unknown id still gets 404, because no row is changed.
- The catch-all 500 paths (`onError` and each handler's `catch`) are not modelled, except for three that follow from PostgreSQL's own limits: the exhausted id sequence on create, an update or delete id outside the `integer` range, and a text containing U+0000, which the `text` type cannot store. The other paths come from exceptions the model cannot see: a lost connection or a failed query, for instance.
- CORS middleware and Hono routing are not modelled. `Worker.Request` is a request that has already been routed, and `Unrouted` stands for the `notFound` fallback.
- worker/index.ts is not part of this model: only its health and 404 routes are live.
- drizzle/schema.ts and drizzle.config.ts are not part of this model: they hold example declarations and tooling configuration that the todo worker does not use.
- src/App.tsx, src/App.test.tsx and e2e/app.spec.ts are not modelled: they are static markup and browser tests.
- The wizard's `handleSubmit` (console logging only), the empty `formData` and all styling are not modelled.
- React state batching is not modelled: two clicks before a re-render would both read the same stale `currentStep`.
- Header insertion order is not modelled, because `fetch` does not depend on it. Header-name case folding in `fetch` is not modelled either, because the client uses two distinct names.
- JavaScript strings are UTF-16 and Dafny characters are Unicode scalar values, so lone surrogates cannot be represented. Every code point `trim` strips is in the Basic Multilingual Plane, so trimming is otherwise unaffected.

=== FILE: api_client.dfy ===
/**
 The frontend API client: its base URL and header map, the bearer-token
 setter, the request each helper hands to `fetch` (as a descriptor), and the
 ok/error classification of the response.
 */
module ApiClient {
  import opened Wrappers
  import opened JsString

  type Headers = map<string, string>

  /** The client's two private fields. */
  datatype Client = Client(baseUrl: string, headers: Headers)

  const DefaultBaseUrl := "http://localhost:8787"
  const ContentType := "Content-Type"
  const JsonMediaType := "application/json"
  const Authorization := "Authorization"
  const HealthEndpoint := "/api/health"

  /** The constructor. `VITE_API_URL || default`: an unset or empty variable
      falls back to the local worker. Headers start as JSON content type only. */
  function NewClient(viteApiUrl: Option<string>): (c: Client)
    ensures c.headers == map[ContentType := JsonMediaType]
    ensures viteApiUrl.Some? && viteApiUrl.value != "" ==> c.baseUrl == viteApiUrl.value
    ensures viteApiUrl.None? || viteApiUrl.value == "" ==> c.baseUrl == DefaultBaseUrl
    ensures c.baseUrl != ""
  {
    var baseUrl := match viteApiUrl case Some(url) => (if url != "" then url else DefaultBaseUrl) case None => DefaultBaseUrl;
    Client(baseUrl, map[ContentType := JsonMediaType])
  }

  /** `setAuthToken`: spreads the old headers and sets `Authorization` to
      "Bearer <token>"; every other header and the base URL are kept. */
  function SetAuthToken(c: Client, token: string): (c': Client)
    ensures c'.baseUrl == c.baseUrl
    ensures c'.headers.Keys == c.headers.Keys + {Authorization}
    ensures c'.headers[Authorization] == "Bearer " + token
    ensures forall k :: k in c.headers && k != Authorization ==> c'.headers[k] == c.headers[k]
  {
    c.(headers := c.headers[Authorization := "Bearer " + token])
  }

  /** Setting a token twice leaves only the second. */
  lemma {:induction false} LastTokenWins(c: Client, first: string, second: string)
    ensures SetAuthToken(SetAuthToken(c, first), second) == SetAuthToken(c, second)
  {
    var a := SetAuthToken(SetAuthToken(c, first), second);
    var b := SetAuthToken(c, second);
    assert a.headers == b.headers;
  }

  /** After the first call the header names no longer change. */
  lemma HeaderNamesStable(c: Client, first: string, second: string)
    ensures SetAuthToken(SetAuthToken(c, first), second).headers.Keys == SetAuthToken(c, first).headers.Keys
  {
  }

  /** A freshly built client with a token has exactly the two headers. */
  lemma NewClientWithToken(viteApiUrl: Option<string>, token: string)
    ensures SetAuthToken(NewClient(viteApiUrl), token).headers
      == map[ContentType := JsonMediaType, Authorization := "Bearer " + token]
  {
  }

  datatype Method = Get | Post | Put | Delete

  /** The client's public calls; `data` stands for the value `JSON.stringify`
      serialises. */
  datatype Call<D> =
    | CheckHealth
    | GetCall(endpoint: string)
    | PostCall(endpoint: string, data: D)
    | PutCall(endpoint: string, data: D)
    | DeleteCall(endpoint: string)

  /** What is passed to `fetch`: the URL and the init object. `verb` is
      `None` when the init object has no method field. */
  datatype FetchRequest<D> = FetchRequest(url: string, verb: Option<Method>, headers: Headers, body: Option<D>)

  /** `fetch` sends GET when no method is given. */
  function EffectiveMethod<D>(r: FetchRequest<D>): Method {
    match r.verb case Some(m) => m case None => Get
  }

  function Endpoint<D>(call: Call<D>): string {
    match call
    case CheckHealth => HealthEndpoint
    case GetCall(e) => e
    case PostCall(e, _) => e
    case PutCall(e, _) => e
    case DeleteCall(e) => e
  }

  /** The request a call makes: the endpoint appended to the base URL as is,
      the current headers, the call's method, and a body for POST and PUT only. */
  function RequestFor<D>(c: Client, call: Call<D>): (r: FetchRequest<D>)
    ensures r.url == c.baseUrl + Endpoint(call)
    ensures r.headers == c.headers
    ensures call.CheckHealth? || call.GetCall? <==> EffectiveMethod(r) == Get
    ensures call.PostCall? <==> EffectiveMethod(r) == Post
    ensures call.PutCall? <==> EffectiveMethod(r) == Put
    ensures call.DeleteCall? <==> EffectiveMethod(r) == Delete
    ensures r.body.Some? <==> EffectiveMethod(r) in {Post, Put}
    ensures call.PostCall? || call.PutCall? ==> r.body == Some(call.data)
  {
    var url := c.baseUrl + Endpoint(call);
    match call
    case CheckHealth => FetchRequest(url, None, c.headers, None)
    case GetCall(_) => FetchRequest(url, Some(Get), c.headers, None)
    case PostCall(_, data) => FetchRequest(url, Some(Post), c.headers, Some(data))
    case PutCall(_, data) => FetchRequest(url, Some(Put), c.headers, Some(data))
    case DeleteCall(_) => FetchRequest(url, Some(Delete), c.headers, None)
  }

  /** Once a token is set, every call sends it along with the JSON content type. */
  lemma AuthorizedRequests<D>(viteApiUrl: Option<string>, token: string, call: Call<D>)
    ensures var r := RequestFor(SetAuthToken(NewClient(viteApiUrl), token), call);
      && r.headers[Authorization] == "Bearer " + token
      && r.headers[ContentType] == JsonMediaType
  {
  }

  /** Without `VITE_API_URL` the health check goes to the local worker. */
  lemma DefaultHealthUrl<D>()
    ensures RequestFor<D>(NewClient(None), CheckHealth).url == "http://localhost:8787/api/health"
  {
  }

  /** What `fetch` resolved to: the status and the body text. */
  datatype FetchResponse = FetchResponse(status: nat, bodyText: string)

  /** `Response.ok`: the status is in 200..299 (the "ok status" of the Fetch standard). */
  predicate IsOk(r: FetchResponse) {
    200 <= r.status <= 299
  }

  const ApiErrorPrefix := "API Error: "
  const StatusSeparator := " - "

  /** The message of the error thrown for a failed response. */
  function ApiErrorMessage(status: nat, bodyText: string): string {
    ApiErrorPrefix + NatToString(status) + StatusSeparator + bodyText
  }

  /** Reads status and body text back out of an error message. The status
      must be written as `${status}` writes it: no zero padding. */
  function ParseApiError(msg: string): Option<(nat, string)> {
    if |msg| < |ApiErrorPrefix| || msg[..|ApiErrorPrefix|] != ApiErrorPrefix then None
    else
      var rest := msg[|ApiErrorPrefix|..];
      var k := DigitRunLength(rest);
      if k == 0 || (k > 1 && rest[0] == '0') then None
      else if |rest| < k + |StatusSeparator| || rest[k..k + |StatusSeparator|] != StatusSeparator then None
      else Some((DigitsValue(rest[..k]), rest[k + |StatusSeparator|..]))
  }

  /** The error message loses nothing: status and body text are recoverable. */
  lemma {:induction false} ApiErrorRoundTrip(status: nat, bodyText: string)
    ensures ParseApiError(ApiErrorMessage(status, bodyText)) == Some((status, bodyText))
  {
    var digits := NatToString(status);
    var msg := ApiErrorMessage(status, bodyText);
    var rest := msg[|ApiErrorPrefix|..];
    assert msg[..|ApiErrorPrefix|] == ApiErrorPrefix;
    assert rest == digits + (StatusSeparator + bodyText);
    DigitRunOfConcat(digits, StatusSeparator + bodyText);
    assert rest[..|digits|] == digits;
    assert rest[|digits|..|digits| + |StatusSeparator|] == StatusSeparator;
    assert rest[|digits| + |StatusSeparator|..] == bodyText;
  }

  /** Conversely, a message that parses is exactly the message built from
      what it parses to; with `ApiErrorRoundTrip` this makes
      `ParseApiError` an exact inverse of `ApiErrorMessage`. */
  lemma {:induction false} ApiErrorParsedIsExact(msg: string)
    requires ParseApiError(msg).Some?
    ensures msg == ApiErrorMessage(ParseApiError(msg).value.0, ParseApiError(msg).value.1)
  {
    var rest := msg[|ApiErrorPrefix|..];
    var k := DigitRunLength(rest);
    var digits := rest[..k];
    assert digits[0] == rest[0];
    CanonicalDigitsRoundTrip(digits);
    assert rest == digits + rest[k..k + |StatusSeparator|] + rest[k + |StatusSeparator|..];
    assert msg == msg[..|ApiErrorPrefix|] + rest;
  }

  /** `handleResponse`: a non-ok response rejects with
      "API Error: <status> - <body text>"; an ok one resolves to its body
      (the text `response.json()` parses). */
  function HandleResponse(r: FetchResponse): (res: Result<string, string>)
    ensures res.Failure? <==> !IsOk(r)
    ensures res.Success? ==> res.value == r.bodyText
    ensures res.Failure? ==> ParseApiError(res.error) == Some((r.status, r.bodyText))
  {
    if !IsOk(r) then
      ApiErrorRoundTrip(r.status, r.bodyText);
      Failure(ApiErrorMessage(r.status, r.bodyText))
    else
      Success(r.bodyText)
  }
}

=== FILE: js_string.dfy ===
/**
 The two pieces of ECMAScript string behaviour the core relies on:
 `String.prototype.trim` and the decimal rendering of a non-negative integer
 inside a template literal.
 */
module JsString {

  /** A code point in ECMAScript's WhiteSpace or LineTerminator productions
      (sections 12.2 and 12.3 of ECMA-262): exactly what `trim` strips.
      WhiteSpace is TAB, VT, FF, ZWNBSP and every Unicode "Space_Separator"
      (U+0020, U+00A0, U+1680, U+2000..U+200A, U+202F, U+205F, U+3000);
      LineTerminator is LF, CR, LS and PS. */
  predicate IsTrimmable(c: char) {
    || c == '\t' || c == '\n' || c == '\U{000B}' || c == '\U{000C}' || c == '\r'
    || c == ' ' || c == '\U{00A0}' || c == '\U{1680}'
    || ('\U{2000}' <= c <= '\U{200A}')
    || c == '\U{2028}' || c == '\U{2029}' || c == '\U{202F}' || c == '\U{205F}'
    || c == '\U{3000}' || c == '\U{FEFF}'
  }

  /** Every character of `s` is whitespace (vacuously true of the empty string). */
  predicate AllTrimmable(s: string) {
    forall i :: 0 <= i < |s| ==> IsTrimmable(s[i])
  }

  /** `s` neither starts nor ends with whitespace. */
  predicate IsTrimmed(s: string) {
    s == [] || (!IsTrimmable(s[0]) && !IsTrimmable(s[|s| - 1]))
  }

  /** The number of whitespace characters `s` starts with. */
  function LeadingWhitespace(s: string): (k: nat)
    ensures k <= |s|
    ensures forall i :: 0 <= i < k ==> IsTrimmable(s[i])
    ensures k < |s| ==> !IsTrimmable(s[k])
    decreases |s|
  {
    if |s| > 0 && IsTrimmable(s[0]) then
      var k := 1 + LeadingWhitespace(s[1..]);
      assert forall i :: 1 <= i < k ==> s[i] == s[1..][i - 1];
      k
    else 0
  }

  /** The number of whitespace characters `s` ends with. */
  function TrailingWhitespace(s: string): (k: nat)
    ensures k <= |s|
    ensures forall i :: |s| - k <= i < |s| ==> IsTrimmable(s[i])
    ensures k < |s| ==> !IsTrimmable(s[|s| - 1 - k])
    decreases |s|
  {
    if |s| > 0 && IsTrimmable(s[|s| - 1]) then
      var k := 1 + TrailingWhitespace(s[..|s| - 1]);
      assert forall i :: |s| - k <= i < |s| - 1 ==> s[i] == s[..|s| - 1][i];
      k
    else 0
  }

  /** `String.prototype.trim`: `s` without its leading and trailing whitespace.
      The result sits in `s` at `LeadingWhitespace(s)` with only whitespace around
      it, starts and ends with non-whitespace, and is empty exactly when `s`
      is all whitespace. */
  function Trim(s: string): (r: string)
    ensures |r| <= |s|
    ensures IsTrimmed(r)
    ensures TrimSplit(s, r, LeadingWhitespace(s))
    ensures r == [] <==> AllTrimmable(s)
  {
    var a := LeadingWhitespace(s);
    if a == |s| then
      []
    else
      var k := TrailingWhitespace(s);
      assert !IsTrimmable(s[a]);
      assert a < |s| - k;
      var r := s[a..|s| - k];
      assert r[0] == s[a] && r[|r| - 1] == s[|s| - 1 - k];
      r
  }

  /** `r` sits in `s` at offset `a`, with only whitespace before and after it. */
  predicate TrimSplit(s: string, r: string, a: int) {
    && 0 <= a <= a + |r| <= |s|
    && r == s[a..a + |r|]
    && (forall i :: 0 <= i < a ==> IsTrimmable(s[i]))
    && (forall i :: a + |r| <= i < |s| ==> IsTrimmable(s[i]))
  }

  /** The cut is unique: any piece of `s` that does not start or end with
      whitespace and has only whitespace around it is `Trim(s)`. So
      `TrimSplit` and `IsTrimmed` define trimming independently of how
      `Trim` computes it. */
  lemma {:induction false} TrimUnique(s: string, r: string, a: int)
    requires TrimSplit(s, r, a) && IsTrimmed(r)
    ensures r == Trim(s)
  {
    var t := Trim(s);
    var b := LeadingWhitespace(s);
    if r == [] {
      assert AllTrimmable(s);
    } else {
      assert r[0] == s[a] && r[|r| - 1] == s[a + |r| - 1];
      assert !IsTrimmable(s[a]) && !IsTrimmable(s[a + |r| - 1]);
      assert t != [];
      assert t[0] == s[b] && t[|t| - 1] == s[b + |t| - 1];
      assert a == b;
      assert a + |r| == b + |t|;
    }
  }

  /** A character that is not whitespace occurs in `s` exactly when it
      occurs in the piece `TrimSplit` cuts out. */
  lemma SplitKeepsNonWhitespace(s: string, r: string, a: int, c: char)
    requires TrimSplit(s, r, a) && !IsTrimmable(c)
    ensures c in r <==> c in s
  {
    if c in s {
      var i :| 0 <= i < |s| && s[i] == c;
      assert a <= i < a + |r|;
      assert r[i - a] == c;
    }
    if c in r {
      var j :| 0 <= j < |r| && r[j] == c;
      assert s[a + j] == c;
    }
  }

  /** Trimming never removes a character that is not whitespace. */
  lemma TrimKeepsNonWhitespace(s: string, c: char)
    requires !IsTrimmable(c)
    ensures c in Trim(s) <==> c in s
  {
    SplitKeepsNonWhitespace(s, Trim(s), LeadingWhitespace(s), c);
  }

  /** Trimming twice is trimming once. */
  lemma TrimIdempotent(s: string)
    ensures Trim(Trim(s)) == Trim(s)
  {
    var t := Trim(s);
    assert TrimSplit(t, t, 0) by {
      assert t[..0] == [] && t[|t|..] == [];
      assert t[0..|t|] == t;
    }
    TrimUnique(t, t, 0);
  }

  predicate IsDigit(c: char) {
    '0' <= c <= '9'
  }

  predicate AllDigits(s: string) {
    forall i :: 0 <= i < |s| ==> IsDigit(s[i])
  }

  /** The value of a run of decimal digits, most significant first. */
  function DigitsValue(s: string): nat
    requires AllDigits(s)
  {
    if s == [] then 0 else DigitsValue(s[..|s| - 1]) * 10 + ((s[|s| - 1] as int) - ('0' as int))
  }

  /** The decimal rendering `${n}` of a non-negative integer number: at least
      one digit, no leading zero, and its digits read back as `n`. */
  function NatToString(n: nat): (r: string)
    ensures |r| >= 1 && AllDigits(r)
    ensures r[0] == '0' ==> n == 0 && |r| == 1
    ensures DigitsValue(r) == n
    decreases n
  {
    var last := [(('0' as int) + n % 10) as char];
    if n < 10 then last
    else
      var prefix := NatToString(n / 10);
      assert (prefix + last)[..|prefix + last| - 1] == prefix;
      prefix + last
  }

  /** A digit run in the form `${n}` produces: no leading zero unless it is "0". */
  predicate IsCanonicalDigits(d: string) {
    |d| >= 1 && AllDigits(d) && (d[0] == '0' ==> |d| == 1)
  }

  /** A run that does not start with '0' has a positive value. */
  lemma {:induction false} LeadingNonZeroPositive(d: string)
    requires d != [] && AllDigits(d) && d[0] != '0'
    ensures DigitsValue(d) >= 1
    decreases |d|
  {
    if |d| > 1 {
      LeadingNonZeroPositive(d[..|d| - 1]);
    }
  }

  /** Rendering is onto the canonical digit runs: every canonical run is the
      rendering of its own value. */
  lemma {:induction false} CanonicalDigitsRoundTrip(d: string)
    requires IsCanonicalDigits(d)
    ensures NatToString(DigitsValue(d)) == d
    decreases |d|
  {
    if |d| > 1 {
      var p := d[..|d| - 1];
      assert p[0] == d[0];
      LeadingNonZeroPositive(p);
      CanonicalDigitsRoundTrip(p);
      var n := DigitsValue(d);
      var v := (d[|d| - 1] as int) - ('0' as int);
      assert n == DigitsValue(p) * 10 + v && 0 <= v < 10;
      assert n / 10 == DigitsValue(p) && n % 10 == v;
      assert d == p + [d[|d| - 1]];
    }
  }

  /** Length of the longest prefix of `s` made of digits. */
  function DigitRunLength(s: string): (k: nat)
    ensures k <= |s| && AllDigits(s[..k])
    ensures k < |s| ==> !IsDigit(s[k])
  {
    if s == [] || !IsDigit(s[0]) then 0
    else
      var k := 1 + DigitRunLength(s[1..]);
      assert s[..k] == [s[0]] + s[1..][..k - 1];
      k
  }

  /** A digit run followed by a non-digit is measured exactly. */
  lemma {:induction false} DigitRunOfConcat(d: string, rest: string)
    requires AllDigits(d)
    requires rest != [] && !IsDigit(rest[0])
    ensures DigitRunLength(d + rest) == |d|
  {
    if d != [] {
      assert (d + rest)[1..] == d[1..] + rest;
      DigitRunOfConcat(d[1..], rest);
    }
  }
}

=== FILE: schema.dfy ===
/**
 The PostgreSQL `todos` table: its row shape, the insert shape with its column
 defaults, and the table as an immutable map from id to row together with the
 state of the `serial` sequence that hands out ids.
 */
module Schema {
  import opened Wrappers

  /** A point in time on an abstract clock; the model never compares clocks. */
  type Timestamp = nat

  /** One row. Every column is NOT NULL, so no field is optional. */
  datatype Todo = Todo(id: nat, text: string, completed: bool, createdAt: Timestamp, updatedAt: Timestamp)

  /** The insert shape: `text` must be given; `completed` and both timestamps
      may be left out and then take their column defaults. The id is always
      left to the sequence. */
  datatype NewTodo = NewTodo(text: string, completed: Option<bool>, createdAt: Option<Timestamp>, updatedAt: Option<Timestamp>)

  /** The rows keyed by id, and the next value the `serial` sequence returns. */
  datatype Table = Table(rows: map<nat, Todo>, nextId: nat)

  /** A `serial` column is backed by a sequence of 32-bit integers: 1 up to 2^31 - 1. */
  const FirstSerial: nat := 1
  const MaxSerial: nat := 0x7FFF_FFFF

  /** A fresh table: no rows, sequence not yet used. */
  const EmptyTable := Table(map[], FirstSerial)

  /** Every row sits under its own id. */
  predicate KeyedById(rows: map<nat, Todo>) {
    forall id :: id in rows ==> rows[id].id == id
  }

  /** Every row sits under its own id, and every id in use was handed out by
      the sequence before its current position. */
  predicate Valid(t: Table) {
    && FirstSerial <= t.nextId <= MaxSerial + 1
    && KeyedById(t.rows)
    && forall id :: id in t.rows ==> FirstSerial <= id < t.nextId
  }

  lemma EmptyTableValid()
    ensures Valid(EmptyTable)
  {
  }

  /** Whether the sequence can still hand out an id. */
  predicate CanInsert(t: Table) {
    t.nextId <= MaxSerial
  }

  /** The row an insert stores: id from the sequence, `completed` defaults to
      false, each timestamp defaults to the insertion time. */
  function RowFor(id: nat, row: NewTodo, now: Timestamp): (r: Todo)
    ensures r.id == id && r.text == row.text
    ensures r.completed <==> row.completed == Some(true)
    ensures r.createdAt == (if row.createdAt.Some? then row.createdAt.value else now)
    ensures r.updatedAt == (if row.updatedAt.Some? then row.updatedAt.value else now)
  {
    Todo(id,
         row.text,
         match row.completed case Some(b) => b case None => false,
         match row.createdAt case Some(ts) => ts case None => now,
         match row.updatedAt case Some(ts) => ts case None => now)
  }

  /** `INSERT ... RETURNING *`: takes the next sequence value as id and adds the
      row under it. Fails, leaving the table alone, once the sequence is
      exhausted. */
  function Insert(t: Table, row: NewTodo, now: Timestamp): (r: Option<(Table, Todo)>)
    requires Valid(t)
    ensures r.None? <==> !CanInsert(t)
    ensures r.Some? ==>
      var (t', created) := r.value;
      && Valid(t')
      && created.id !in t.rows
      && t'.rows == t.rows[created.id := created]
      && t.nextId <= created.id < t'.nextId
      && created == RowFor(created.id, row, now)
  {
    if !CanInsert(t) then None
    else
      var created := RowFor(t.nextId, row, now);
      Some((Table(t.rows[t.nextId := created], t.nextId + 1), created))
  }

  /** An insert that gives neither `completed` nor the timestamps, as the
      create handler's does, yields an open todo stamped twice with `now`. */
  lemma DefaultsOnInsert(t: Table, text: string, now: Timestamp)
    requires Valid(t) && CanInsert(t)
    ensures var r := Insert(t, NewTodo(text, None, None, None), now);
      && r.Some?
      && !r.value.1.completed
      && r.value.1.createdAt == now && r.value.1.updatedAt == now
  {
  }
}

=== FILE: wizard.dfy ===
/**
 The multi-step form: a step counter over 1..4 moved by the Next and
 Previous buttons, and the facts the view derives from the step (progress
 segments, which buttons show, which panel renders).
 */
module Wizard {
  import opened Wrappers
  import JsString

  const TotalSteps: nat := 4
  const InitialStep: nat := 1

  predicate InRange(step: int) {
    1 <= step <= TotalSteps
  }

  /** `handleNext`: one step forward, except on the last step. */
  function Next(step: nat): (r: nat)
    ensures InRange(step) ==> InRange(r)
    ensures step < TotalSteps ==> r == step + 1
    ensures r == step <==> step >= TotalSteps
  {
    if step < TotalSteps then step + 1 else step
  }

  /** `handlePrevious`: one step back, except on the first step. */
  function Previous(step: nat): (r: nat)
    ensures InRange(step) ==> InRange(r)
    ensures step > 1 ==> r == step - 1
    ensures r == step <==> step <= 1
  {
    if step > 1 then step - 1 else step
  }

  datatype Action = NextClicked | PreviousClicked

  function Apply(step: nat, a: Action): nat {
    match a
    case NextClicked => Next(step)
    case PreviousClicked => Previous(step)
  }

  /** The step after a sequence of clicks. */
  function Run(step: nat, actions: seq<Action>): nat
    decreases |actions|
  {
    if actions == [] then step else Run(Apply(step, actions[0]), actions[1..])
  }

  /** The step stays within 1..4 whatever is clicked. */
  lemma {:induction false} RunStaysInRange(step: nat, actions: seq<Action>)
    requires InRange(step)
    ensures InRange(Run(step, actions))
    decreases |actions|
  {
    if actions != [] {
      RunStaysInRange(Apply(step, actions[0]), actions[1..]);
    }
  }

  /** In particular from the initial step. */
  lemma {:induction false} ReachableStepsInRange(actions: seq<Action>)
    ensures InRange(Run(InitialStep, actions))
  {
    RunStaysInRange(InitialStep, actions);
  }

  /** Every step is reached from the start by `step - 1` Next clicks. */
  lemma {:induction false} EveryStepReachable(step: nat)
    requires InRange(step)
    ensures Run(InitialStep, seq(step - 1, _ => NextClicked)) == step
  {
    NextRunFrom(InitialStep, step - 1);
  }

  lemma {:induction false} NextRunFrom(step: nat, n: nat)
    requires step + n <= TotalSteps
    ensures Run(step, seq(n, _ => NextClicked)) == step + n
    decreases n
  {
    if n > 0 {
      var clicks := seq(n, _ => NextClicked);
      assert clicks[1..] == seq(n - 1, _ => NextClicked);
      NextRunFrom(step + 1, n - 1);
    }
  }

  /** Next then Previous undoes Next below the last step, and Previous then
      Next undoes Previous above the first. */
  lemma NextPreviousInverse(step: nat)
    ensures 1 <= step < TotalSteps ==> Previous(Next(step)) == step
    ensures 1 < step <= TotalSteps ==> Next(Previous(step)) == step
  {
  }

  /** The progress bar: segment `i` is filled when `i < step`. */
  function ProgressBar(step: nat): (bar: seq<bool>)
    ensures |bar| == TotalSteps
    ensures forall i :: 0 <= i < |bar| ==> (bar[i] <==> i < step)
  {
    seq(TotalSteps, i => i < step)
  }

  function CountFilled(bar: seq<bool>): nat
    decreases |bar|
  {
    if bar == [] then 0 else (if bar[|bar| - 1] then 1 else 0) + CountFilled(bar[..|bar| - 1])
  }

  /** A bar whose first `n` segments are filled and the rest empty has `n` filled. */
  lemma {:induction false} CountFilledPrefix(bar: seq<bool>, n: nat)
    requires n <= |bar|
    requires forall i :: 0 <= i < |bar| ==> (bar[i] <==> i < n)
    ensures CountFilled(bar) == n
    decreases |bar|
  {
    if bar != [] {
      if n == |bar| {
        CountFilledPrefix(bar[..|bar| - 1], n - 1);
      } else {
        CountFilledPrefix(bar[..|bar| - 1], n);
      }
    }
  }

  /** On every step exactly `step` segments are filled. */
  lemma FilledSegmentsEqualStep(step: nat)
    requires InRange(step)
    ensures CountFilled(ProgressBar(step)) == step
  {
    CountFilledPrefix(ProgressBar(step), step);
  }

  predicate PreviousDisabled(step: nat) {
    step == 1
  }

  predicate ShowsNext(step: nat) {
    step < TotalSteps
  }

  /** Previous is disabled exactly where clicking it would do nothing, and
      Next is shown exactly where it moves; elsewhere Submit replaces it. */
  lemma ButtonsMatchTransitions(step: nat)
    requires InRange(step)
    ensures PreviousDisabled(step) <==> Previous(step) == step
    ensures ShowsNext(step) <==> Next(step) != step
    ensures !ShowsNext(step) <==> step == TotalSteps
  {
  }

  /** The heading of the panel rendered for a step; none outside 1..4. */
  function PanelHeading(step: nat): (h: Option<string>)
    ensures h.Some? <==> InRange(step)
  {
    if step == 1 then Some("Step 1: Basic Information")
    else if step == 2 then Some("Step 2: Details")
    else if step == 3 then Some("Step 3: Preferences")
    else if step == 4 then Some("Step 4: Review & Confirm")
    else None
  }

  /** Whatever is clicked, some step panel is on screen. */
  lemma {:induction false} ReachableStepShowsPanel(actions: seq<Action>)
    ensures PanelHeading(Run(InitialStep, actions)).Some?
  {
    ReachableStepsInRange(actions);
  }

  /** The caption under the bar, "Step {currentStep} of {totalSteps}": the
      number between the fixed words is written without padding and reads
      back as the step. */
  function StepCaption(step: nat): (c: string)
    ensures |c| >= 11 && c[..5] == "Step " && c[|c| - 5..] == " of 4"
    ensures JsString.IsCanonicalDigits(c[5..|c| - 5]) && JsString.DigitsValue(c[5..|c| - 5]) == step
  {
    var digits := JsString.NatToString(step);
    assert JsString.NatToString(TotalSteps) == "4";
    var c := "Step " + digits + " of " + JsString.NatToString(TotalSteps);
    assert c == "Step " + (digits + " of 4");
    assert c[5..] == digits + " of 4";
    assert c[5..][..|digits|] == digits;
    assert c[5..|c| - 5] == c[5..][..|digits|];
    c
  }
}

=== FILE: worker.dfy ===
/**
 The todo API worker: the `/api/health` and `/api/todos` route handlers, each
 a pure function from (table, request, current time) to (table', reply).
 The database is the `Schema.Table` value; the clock is the `now` argument.
 */
module Worker {
  import opened Wrappers
  import opened JsString
  import opened Schema

  /** The JSON bodies the worker sends. */
  datatype Body =
    | TodoJson(todo: Todo)
    | TodoListJson(todos: seq<Todo>)
    | ErrorJson(error: string)
    | MessageJson(message: string)
    | HealthJson(status: string, timestamp: Timestamp, message: string)

  /** An HTTP status with its JSON body. */
  datatype Reply = Reply(status: nat, body: Body)

  /** The table after a request, and the reply to it. */
  datatype Outcome = Outcome(table: Table, reply: Reply)

  /** The optional fields of a PUT body. */
  datatype UpdateFields = UpdateFields(text: Option<string>, completed: Option<bool>)

  /** A request after routing. Ids are whatever `parseInt` made of the path
      segment; the POST body's `text` may be absent. */
  datatype Request =
    | Health
    | ListTodos
    | CreateTodo(text: Option<string>)
    | UpdateTodo(id: int, fields: UpdateFields)
    | DeleteTodo(id: int)
    | Unrouted

  const TextRequired := "Text is required"
  const CreateFailed := "Failed to create todo"
  const UpdateFailed := "Failed to update todo"
  const DeleteFailed := "Failed to delete todo"
  const TodoNotFound := "Todo not found"
  const TodoDeleted := "Todo deleted successfully"
  const RouteNotFound := "Not found"
  const HealthMessage := "Todo API with PostgreSQL is running"

  /** GET /api/health: status "ok" and the current time, whatever the table holds. */
  function HealthCheck(now: Timestamp): (r: Reply)
    ensures r.status == 200
    ensures r.body.HealthJson? && r.body.status == "ok" && r.body.timestamp == now
    ensures r.body.message == HealthMessage
  {
    Reply(200, HealthJson("ok", now, HealthMessage))
  }

  /** The rows whose ids lie in [lo, hi), in ascending id order. */
  function RowsBetween(rows: map<nat, Todo>, lo: nat, hi: nat): (r: seq<Todo>)
    requires KeyedById(rows)
    ensures forall i :: 0 <= i < |r| ==> lo <= r[i].id < hi && r[i].id in rows && rows[r[i].id] == r[i]
    ensures forall id :: lo <= id < hi && id in rows ==> rows[id] in r
    ensures forall i, j :: 0 <= i < j < |r| ==> r[i].id < r[j].id
    decreases hi - lo
  {
    if lo >= hi then []
    else if lo in rows then [rows[lo]] + RowsBetween(rows, lo + 1, hi)
    else RowsBetween(rows, lo + 1, hi)
  }

  /** GET /api/todos: every row exactly once. SQL leaves the order open; the
      model fixes ascending id order. */
  function ListAll(t: Table): (r: seq<Todo>)
    requires Valid(t)
    ensures forall x :: x in r <==> x in t.rows.Values
    ensures forall i, j :: 0 <= i < j < |r| ==> r[i].id < r[j].id
  {
    RowsBetween(t.rows, FirstSerial, t.nextId)
  }

  /** The create handler's guard: `text` absent, empty, or empty once trimmed. */
  predicate IsMissingText(text: Option<string>) {
    text.None? || text.value == "" || Trim(text.value) == ""
  }

  /** PostgreSQL's `text` type cannot hold the character U+0000: binding a
      string containing it raises an encoding error before the statement
      runs, and the handler's `catch` answers 500. */
  predicate HasNul(s: string) {
    '\0' in s
  }

  /** POST /api/todos. Rejects a missing or whitespace-only `text` with 400;
      otherwise inserts the TRIMMED text with every other column defaulted and
      answers 201 with the stored row. A text containing U+0000 or an
      exhausted id sequence makes the insert throw, which the handler turns
      into 500. */
  function Create(t: Table, text: Option<string>, now: Timestamp): (o: Outcome)
    requires Valid(t)
    ensures Valid(o.table)
    ensures o.reply.status in {201, 400, 500}
    ensures o.reply.status == 400 <==> text.None? || AllTrimmable(text.value)
    ensures o.reply.status == 400 ==> o == Outcome(t, Reply(400, ErrorJson(TextRequired)))
    ensures o.reply.status == 500 <==> text.Some? && !AllTrimmable(text.value) && (HasNul(text.value) || !CanInsert(t))
    ensures o.reply.status == 500 ==> o == Outcome(t, Reply(500, ErrorJson(CreateFailed)))
    ensures o.reply.status == 201 ==>
      && text.Some? && o.reply.body.TodoJson?
      && var row := o.reply.body.todo;
      && row.id !in t.rows
      && o.table.rows == t.rows[row.id := row]
      && t.nextId <= row.id < o.table.nextId
      && row.text == Trim(text.value) && row.text != "" && IsTrimmed(row.text) && !HasNul(row.text)
      && !row.completed
      && row.createdAt == now && row.updatedAt == now
  {
    if IsMissingText(text) then
      Outcome(t, Reply(400, ErrorJson(TextRequired)))
    else if HasNul(Trim(text.value)) then
      TrimKeepsNonWhitespace(text.value, '\0');
      Outcome(t, Reply(500, ErrorJson(CreateFailed)))
    else
      TrimKeepsNonWhitespace(text.value, '\0');
      match Insert(t, NewTodo(Trim(text.value), None, None, None), now)
      case None => Outcome(t, Reply(500, ErrorJson(CreateFailed)))
      case Some((t', created)) => Outcome(t', Reply(201, TodoJson(created)))
  }

  /** Whether an id fits PostgreSQL's `integer` column type. Comparing the
      `id` column with anything outside this range is an out-of-range error,
      which the handler's `catch` answers with 500. */
  predicate IsInt32(id: int) {
    -0x8000_0000 <= id <= 0x7FFF_FFFF
  }

  /** The SET clause of the update: each supplied field, verbatim, and always
      the new `updatedAt`. */
  function ApplyFields(row: Todo, f: UpdateFields, now: Timestamp): Todo {
    row.(text := match f.text case Some(s) => s case None => row.text,
         completed := match f.completed case Some(b) => b case None => row.completed,
         updatedAt := now)
  }

  /** A supplied text the `text` column cannot store. */
  predicate HasUnstorableText(f: UpdateFields) {
    f.text.Some? && HasNul(f.text.value)
  }

  /** PUT /api/todos/:id. An id outside the 32-bit range or a supplied text
      containing U+0000 answers 500 (the statement fails before any row is
      looked at), and an unknown id 404; none of these changes anything.
      Otherwise only that row changes: `text` and `completed` take the
      supplied values (text is neither trimmed nor checked), everything
      else is kept, and `updatedAt` becomes `now` even when no field is
      supplied. */
  function Update(t: Table, id: int, f: UpdateFields, now: Timestamp): (o: Outcome)
    requires Valid(t)
    ensures Valid(o.table)
    ensures o.table.nextId == t.nextId
    ensures !IsInt32(id) || HasUnstorableText(f) ==> o == Outcome(t, Reply(500, ErrorJson(UpdateFailed)))
    ensures IsInt32(id) && !HasUnstorableText(f) && id !in t.rows ==> o == Outcome(t, Reply(404, ErrorJson(TodoNotFound)))
    ensures id in t.rows && !HasUnstorableText(f) ==>
      && o.table.rows.Keys == t.rows.Keys
      && (forall k :: k in t.rows && k != id ==> o.table.rows[k] == t.rows[k])
      && var before, after := t.rows[id], o.table.rows[id];
      && after.id == before.id && after.createdAt == before.createdAt
      && after.text == (if f.text.Some? then f.text.value else before.text)
      && after.completed == (if f.completed.Some? then f.completed.value else before.completed)
      && after.updatedAt == now
      && o.reply == Reply(200, TodoJson(after))
  {
    if !IsInt32(id) || HasUnstorableText(f) then
      Outcome(t, Reply(500, ErrorJson(UpdateFailed)))
    else if id in t.rows then
      var updated := ApplyFields(t.rows[id], f, now);
      Outcome(t.(rows := t.rows[id := updated]), Reply(200, TodoJson(updated)))
    else
      Outcome(t, Reply(404, ErrorJson(TodoNotFound)))
  }

  /** DELETE /api/todos/:id. Removes exactly that row; an id outside the
      32-bit range answers 500 and an unknown id 404, and neither changes
      anything. The sequence is not rewound. */
  function Delete(t: Table, id: int): (o: Outcome)
    requires Valid(t)
    ensures Valid(o.table)
    ensures o.table.nextId == t.nextId
    ensures !IsInt32(id) ==> o == Outcome(t, Reply(500, ErrorJson(DeleteFailed)))
    ensures IsInt32(id) && id !in t.rows ==> o == Outcome(t, Reply(404, ErrorJson(TodoNotFound)))
    ensures id in t.rows ==>
      && o.table.rows.Keys == t.rows.Keys - {id}
      && (forall k :: k in o.table.rows ==> o.table.rows[k] == t.rows[k])
      && o.reply == Reply(200, MessageJson(TodoDeleted))
  {
    if !IsInt32(id) then
      Outcome(t, Reply(500, ErrorJson(DeleteFailed)))
    else if id in t.rows then
      Outcome(t.(rows := t.rows - {id}), Reply(200, MessageJson(TodoDeleted)))
    else
      Outcome(t, Reply(404, ErrorJson(TodoNotFound)))
  }

  /** The worker: dispatches a routed request to its handler; anything
      unrouted gets the 404 fallback. Reads never change the table. */
  function Handle(t: Table, req: Request, now: Timestamp): (o: Outcome)
    requires Valid(t)
    ensures Valid(o.table)
    ensures o.table.nextId >= t.nextId
    ensures req.Health? || req.ListTodos? || req.Unrouted? ==> o.table == t
    ensures req.Health? ==> o.reply == HealthCheck(now)
    ensures req.ListTodos? ==>
      && o.reply.status == 200 && o.reply.body.TodoListJson?
      && (forall x :: x in o.reply.body.todos <==> x in t.rows.Values)
    ensures req.Unrouted? ==> o.reply == Reply(404, ErrorJson(RouteNotFound))
  {
    match req
    case Health => Outcome(t, HealthCheck(now))
    case ListTodos => Outcome(t, Reply(200, TodoListJson(ListAll(t))))
    case CreateTodo(text) => Create(t, text, now)
    case UpdateTodo(id, f) => Update(t, id, f, now)
    case DeleteTodo(id) => Delete(t, id)
    case Unrouted => Outcome(t, Reply(404, ErrorJson(RouteNotFound)))
  }

  /** Serves requests one after another, each at its own time. The table
      stays well formed and the id sequence never moves backwards. */
  function Serve(t: Table, reqs: seq<(Request, Timestamp)>): (t': Table)
    requires Valid(t)
    ensures Valid(t')
    ensures t'.nextId >= t.nextId
    ensures forall id :: id in t'.rows && id < t.nextId ==> id in t.rows
    decreases |reqs|
  {
    if reqs == [] then t
    else Serve(Handle(t, reqs[0].0, reqs[0].1).table, reqs[1..])
  }

  /** The health reply does not depend on the table. */
  lemma HealthIgnoresTable(t1: Table, t2: Table, now: Timestamp)
    requires Valid(t1) && Valid(t2)
    ensures Handle(t1, Health, now).reply == Handle(t2, Health, now).reply
    ensures Handle(t1, Health, now).table == t1
  {
  }

  /** Toggling `completed` on an existing todo flips that flag, refreshes
      `updatedAt`, and leaves text, id and creation time as they were. */
  lemma ToggleCompleted(t: Table, id: nat, now: Timestamp)
    requires Valid(t) && id in t.rows
    ensures var before := t.rows[id];
      var o := Update(t, id, UpdateFields(None, Some(!before.completed)), now);
      o.table.rows[id] == before.(completed := !before.completed, updatedAt := now)
  {
  }

  /** Update stores supplied text verbatim: an empty or padded text is not
      rejected and not trimmed, unlike on create. Only a text the column
      cannot hold fails, with 500 and the row as it was. */
  lemma UpdateKeepsTextVerbatim(t: Table, id: nat, text: string, now: Timestamp)
    requires Valid(t) && id in t.rows
    ensures !HasNul(text) ==> Update(t, id, UpdateFields(Some(text), None), now).table.rows[id].text == text
    ensures !HasNul(text) ==> Update(t, id, UpdateFields(Some(text), None), now).reply.status == 200
    ensures HasNul(text) ==> Update(t, id, UpdateFields(Some(text), None), now).reply.status == 500
    ensures HasNul(text) ==> Update(t, id, UpdateFields(Some(text), None), now).table == t
  {
  }

  /** Once deleted, a todo is gone from the next listing. */
  lemma {:induction false} DeletedTodoNotListed(t: Table, id: nat)
    requires Valid(t) && id in t.rows
    ensures forall x :: x in ListAll(Delete(t, id).table) ==> x.id != id
  {
    var t' := Delete(t, id).table;
    forall x | x in ListAll(t') ensures x.id != id {
      assert x in t'.rows.Values;
      var k :| k in t'.rows && t'.rows[k] == x;
    }
  }

  /** A row created after a delete never takes the deleted row's id. */
  lemma {:induction false} DeletedIdNotReused(t: Table, id: nat, text: Option<string>, now: Timestamp)
    requires Valid(t) && id in t.rows
    ensures var o := Create(Delete(t, id).table, text, now);
      o.reply.status == 201 ==> o.reply.body.todo.id != id
  {
  }

  /** A successful create is visible in the next listing. */
  lemma {:induction false} CreatedTodoListed(t: Table, text: Option<string>, now: Timestamp)
    requires Valid(t)
    ensures var o := Create(t, text, now);
      o.reply.status == 201 ==> o.reply.body.todo in ListAll(o.table)
  {
    var o := Create(t, text, now);
    if o.reply.status == 201 {
      var row := o.reply.body.todo;
      assert o.table.rows[row.id] == row;
      assert row in o.table.rows.Values;
    }
  }
}

=== FILE: wrappers.dfy ===
/** Failure-carrying datatypes shared by the other modules. */
module Wrappers {

  /** An optional value: a JSON field that may be absent, an unset environment variable. */
  datatype Option<+T> = None | Some(value: T)

  /** A value or an error, standing in for a promise that resolves or rejects. */
  datatype Result<+R, +E> = Success(value: R) | Failure(error: E)
}
